=== FILE: README.md ===
# Konquest user store and keyword scoring, in Dafny

A model of the game's in-memory user store (`src/store/userStore.js`) and of
the two pieces of `src/routes/home.js` that sit on it: `getSessionUser`, which
reconciles the session's user with the store, and the `POST /submit-keyword`
handler, which turns a submitted secret keyword into 100 points once per user.

The store is an immutable `seq<User>`; each operation is a pure function that
returns the new store with its result, as the JavaScript's in-place mutation of
the one `users` array would leave it. Each request's effect on the store is
one atomic step; requests do not interleave (see `Game.Register` under
"## Left out" for where the route can).

Modules, one file each:

- `Wrappers` (`wrappers.dfy`): `Option`, for the JavaScript's `undefined`/`null`.
- `Text` (`text.dfy`): `trim`, `toLowerCase` and the username order used by the
  leaderboard.
- `UserStore` (`user_store.dfy`): records, `createUser`, `findByUsername`,
  `findById`, `toPublicUser` and `recordKeywordUsage`.
- `Leaderboard` (`leaderboard.dfy`): `getLeaderboard` as a ranked permutation.
- `Home` (`home.dfy`): `getSessionUser`, the keyword validator chain and the
  submit handler's decision, with outcomes `RedirectLogin`, `ValidationError`,
  `AlreadyClaimed` and `Awarded`.
- `Game` (`game.dfy`): sequences of user creations, registrations and keyword
  submissions from the empty store, and the invariants every reachable store
  keeps.

The code is looser than a reader might expect in three places:

- `createUser` never rejects a duplicate username; it always appends
  (`UserStore.CreateUserDoesNotRejectDuplicates`). Usernames stay distinct only
  because the registration route looks the name up first
  (`UserStore.CreateUserKeepsUsernamesDistinct`).
- `findByUsername` is an exact, case-sensitive match. It behaves
  case-insensitively only because the registration and login routes lower-case
  the name before calling it.
- Scores are not kept non-negative by the store itself. `recordKeywordUsage`
  adds whatever `points` it is given. They grow only for non-negative points
  (`UserStore.RecordKeywordUsageMonotone`). The route always passes 100.

The secret-keyword allow-list (`src/data/secretKeywords`) is not part of this
model. It is a parameter `secretKeywords: seq<string>` of every operation that
consults it.

## Model

| member | source | states |
|---|---|---|
| Text.Lower | src/routes/home.js:13 | lower-casing keeps the length, maps each character on its own, and leaves no upper-case ASCII letter |
| Text.LowerIdempotent | src/store/userStore.js:37 | lower-casing an already lower-cased keyword changes nothing, so a stored keyword is its own normal form |
| Text.Trim | src/routes/home.js:60 | `trim` returns the slice of the input that remains when white space, and only white space, is removed at both ends; the result has no white space at either end |
| Text.TrimOfTrimmed | src/routes/home.js:60 | trimming a string with no white space at its ends returns it unchanged |
| Text.LowerKeepsTrimmed | src/routes/home.js:12-13 | lower-casing a trimmed string leaves it trimmed |
| Text.LexLessIrreflexive | src/store/userStore.js:52 | no username sorts before itself |
| Text.LexLessAsymmetric | src/store/userStore.js:52 | two usernames are never each before the other |
| Text.LexLessTransitive | src/store/userStore.js:52 | the username order is transitive |
| Text.LexLessTotal | src/store/userStore.js:52 | any two different usernames are ordered one way or the other |
| UserStore.CreateUser | src/store/userStore.js:3-14 | appends exactly one record, with id old length + 1, the given name and hash, score 0 and no keywords; existing records are untouched |
| UserStore.CreateUserKeepsIdsSequential | src/store/userStore.js:3-14 | if record i has id i + 1 before creation, it does after too; the new id exceeds every earlier id, and ids strictly increase with position |
| UserStore.CreateUserDoesNotRejectDuplicates | src/store/userStore.js:3-18 | creating a user whose name already exists still appends a record, and lookup by that name still returns the older record |
| UserStore.CreateUserKeepsUsernamesDistinct | src/store/userStore.js:3-18 | usernames stay pairwise distinct when a user is created only after lookup by that name found nothing |
| UserStore.FirstIndex | src/store/userStore.js:16-22 | `Array.prototype.find` by position: the result satisfies the test and no earlier record does; nothing is found only if no record satisfies it |
| UserStore.FindByUsername | src/store/userStore.js:16-18 | nothing is found exactly when no record has that exact username; a found record has that username |
| UserStore.FindByUsernameFirst | src/store/userStore.js:16-18 | the lookup returns the earliest record whose username is exactly the one asked for |
| UserStore.FindById | src/store/userStore.js:20-22 | nothing is found exactly when no record has that id; a found record has that id |
| UserStore.FindByIdFirst | src/store/userStore.js:20-22 | the lookup returns the earliest record with that id |
| UserStore.FindByIdSequential | src/store/userStore.js:3-22 | with ids 1..n, looking up id returns the record at position id - 1 when 1 <= id <= n and nothing otherwise |
| UserStore.ToPublicUser | src/store/userStore.js:24-29 | absent input gives null; otherwise the view has exactly the record's id, username and score, and its type has no password field |
| UserStore.PublicViewHidesSecrets | src/store/userStore.js:24-29 | two records that differ only in password hash or redeemed keywords have the same public view |
| UserStore.RecordKeywordUsage | src/store/userStore.js:31-46 | unknown id: `{user: null, alreadyUsed: false}` and no change; `alreadyUsed` holds exactly when the lower-cased keyword is already in the user's list, and then nothing changes; the returned record has the requested id |
| UserStore.RecordKeywordUsageAwards | src/store/userStore.js:43-45 | a first redemption appends the lower-cased keyword, adds exactly `points`, and returns the record the store now holds for that id |
| UserStore.RecordKeywordUsageSequential | src/store/userStore.js:31-46 | with ids 1..n, a first redemption replaces record id - 1 with its updated copy and nothing else |
| UserStore.RecordKeywordUsageFrame | src/store/userStore.js:31-46 | records of other users are unchanged, and no record's id, username or hash changes |
| UserStore.RecordKeywordUsageMonotone | src/store/userStore.js:39-45 | with non-negative points no score drops, and every keyword list keeps its old entries as a prefix |
| UserStore.RecordKeywordUsageKeepsKeywordsDistinct | src/store/userStore.js:37-45 | keyword lists without repeats stay without repeats |
| UserStore.RecordKeywordUsageIdempotent | src/store/userStore.js:37-45 | redeeming a keyword and then the same keyword in any letter case awards once: the second call reports `alreadyUsed` for a known user, returns the same record and changes nothing |
| Leaderboard.InOrderTotal | src/store/userStore.js:50-55 | of any two entries, at least one may come first |
| Leaderboard.InOrderTransitive | src/store/userStore.js:50-55 | the comparator's "may come before" relation is transitive |
| Leaderboard.RankedPairwise | src/store/userStore.js:50-55 | a board ordered pair by adjacent pair is ordered across every pair of positions |
| Leaderboard.Insert | src/store/userStore.js:50-55 | inserting into a ranked board gives a ranked board with exactly one more entry, the inserted one |
| Leaderboard.Sort | src/store/userStore.js:49-55 | the sort returns a ranked permutation of its input |
| Leaderboard.Publics | src/store/userStore.js:56 | one public view per record, in store order |
| Leaderboard.GetLeaderboard | src/store/userStore.js:48-57 | one public view per stored user (a permutation of the projected store), each adjacent pair ordered by score descending and then username ascending |
| Leaderboard.RankedHeadsAgree | src/store/userStore.js:48-57 | two ranked arrangements of the same entries with distinct usernames begin with the same entry |
| Leaderboard.RankedUnique | src/store/userStore.js:48-57 | with distinct usernames there is only one ranked arrangement of a given collection of entries |
| Leaderboard.LeaderboardUnique | src/store/userStore.js:48-57 | with distinct stored usernames, any ranked permutation of the public views is the leaderboard, whatever sort produced it |
| Home.GetSessionUser | src/routes/home.js:19-33 | no session user gives null and no session user; an id the store lacks clears the session and gives null; otherwise the session becomes the store's current public view, which is returned, so the session score equals the stored score |
| Home.GetSessionUserStable | src/routes/home.js:19-33 | resolving the refreshed session again against the same store returns the same user and leaves the same session |
| Home.SanitizeKeyword | src/routes/home.js:11-13 | the sanitized keyword has no white space at its ends, no upper-case ASCII letter, and is no longer than the raw input |
| Home.ValidatorLength | src/routes/home.js:14 | the length `isLength` measures is zero exactly when every character is a presentation selector U+FE0E or U+FE0F, and never exceeds the character count |
| Home.ValidateKeyword | src/routes/home.js:11-17 | no errors exactly when the keyword has a non-zero `isLength` length and is allow-listed; "empty" is reported exactly for a keyword made only of presentation selectors (the empty one included), "not recognized" exactly for one not on the list; with both, "empty" comes first |
| Home.SubmitKeyword | src/routes/home.js:53-92 | the store keeps its size; every outcome but a redirect keeps the user logged in, with the session refreshed to the store's current public view of the session's id; any session user left behind is the store's view of that id |
| Home.NormalizeSanitized | src/routes/home.js:60-61 | the handler's second trim and lower-case leave the validator's sanitized keyword unchanged |
| Home.SubmitKeywordDecision | src/routes/home.js:53-92 | the outcome is a redirect when no stored user is in the session, whatever the keyword; else a validation error for an empty (by `isLength`'s count) or unknown keyword; else "already claimed" when the user holds it; else an award of 100 |
| Home.SubmitKeywordChangesStoreOnlyOnAward | src/routes/home.js:53-92 | redirects, validation errors and "already claimed" leave the store exactly as it was |
| Home.SubmitKeywordRedirects | src/routes/home.js:54-79 | the handler redirects exactly when the session has no user the store knows, and then leaves no session user; the redirect after recording is never taken |
| Home.SubmitKeywordAward | src/routes/home.js:70-91 | an award adds exactly 100 to the session user's stored score and appends the sanitized, allow-listed keyword; other records are unchanged, and the session shows the new score |
| Home.SubmitKeywordAwardRecords | src/routes/home.js:70-74 | an award is `recordKeywordUsage` for the session user's id with the sanitized keyword and 100 points, for a keyword the user did not yet hold |
| Home.SubmitKeywordSeesSanitizedOnly | src/routes/home.js:11-13 | two raw form values that trim and lower-case alike get the same outcome, store and session, so case and padding of a submission never matter |
| Home.SubmitKeywordTwiceAwardsOnce | src/routes/home.js:53-92 | resubmitting an awarded keyword, with the session the first submission left, is "already claimed" and changes neither store nor session |
| Game.CreatePreservesValid | src/store/userStore.js:3-14 | user creation keeps a store valid: ids 1..n, keyword lists without repeats, all keywords allow-listed, each score 100 per keyword |
| Game.RecordPreservesValid | src/store/userStore.js:31-46 | a first redemption of an allow-listed lower-case keyword worth 100 keeps a store valid |
| Game.SubmitPreservesValid | src/routes/home.js:53-92 | every keyword submission keeps a store valid |
| Game.StepPreservesValid | src/store/userStore.js:1-46 | each store-changing request (creation, registration, submission) keeps a store valid |
| Game.RunPreservesValid | src/store/userStore.js:1-46 | any sequence of creations, registrations and submissions keeps a store valid |
| Game.ReachableStoresAreValid | src/store/userStore.js:1-46 | every store reachable from the empty start has ids exactly 1..n, keyword lists without repeats drawn from the allow-list, and scores of exactly 100 per redeemed keyword |
| Game.RecordGrows | src/store/userStore.js:31-46 | recording 100 points removes no record, keeps ids and usernames, lowers no score, and only appends to keyword lists |
| Game.SubmitGrows | src/routes/home.js:53-92 | a keyword submission removes no record, keeps ids and usernames, lowers no score, and only appends to keyword lists |
| Game.StepGrows | src/store/userStore.js:1-46 | each store-changing request removes no record, keeps ids and usernames, lowers no score, and only appends to keyword lists |
| Game.RunGrows | src/store/userStore.js:1-46 | over any run, no record is deleted, ids and usernames never change, scores never drop, and keyword lists only grow at the end |
| Game.SameNamesKeepDistinct | src/store/userStore.js:31-46 | a change that adds no record and keeps every username keeps usernames distinct |
| Game.StepKeepsUsernamesDistinct | src/routes/auth.js:37-47 | a registration (create only when lookup by the name finds nothing) or a keyword submission keeps usernames pairwise distinct |
| Game.RunKeepsUsernamesDistinct | src/routes/auth.js:37-47 | over any run of registrations and submissions, usernames stay pairwise distinct |
| Game.ReachableLeaderboardUnique | src/store/userStore.js:48-57 | in every store reached from the empty start through registrations and submissions, any ranked permutation of the public views is the leaderboard |

## Left out

- The creation timestamp `createdAt: new Date()` is wall-clock time. No property depends on it.
- Text.Lower: lower-cases ASCII letters only, where JavaScript's `toLowerCase` is full Unicode. Non-ASCII keywords therefore compare case-sensitively here.
- Text.LexLess: orders usernames by character code, where the source uses the locale-aware `localeCompare`. They differ on punctuation and digits: for `a_b` and `a1b`, `localeCompare` puts `a_b` first and this model puts `a1b` first. Under the root or English collation they agree on names made of lower-case letters only; `localeCompare` is called with no locale, so the server's default locale decides the order (Danish collation, for one, puts `aa` after `z`).
- Leaderboard.GetLeaderboard: maps `toPublicUser` over the records before sorting, where the source sorts and then maps. The comparator reads only `score` and `username`, which the view keeps, so the order is the same. Stability among records with equal score and equal username is not stated. Such records arise when `createUser` runs without a preceding empty lookup, or when two registrations of one name overlap (see `Game.Register` below). `Game.ReachableLeaderboardUnique` shows that in stores built by non-overlapping registrations, the board is fully determined.
- Password hashing and comparison (bcrypt in `src/routes/auth.js`). The hash is an opaque string that the store keeps and never exposes.
- Registration, login and logout handlers, `src/routes/auth.js`, are not part of this model. They are request validation, hashing and rendering. Only their effect on the store matters here: registration's lookup-then-`createUser`, modelled by `Game.Register`. `Game.Create` over-approximates registration by skipping the lookup, so it covers any interleaving in which the lookup no longer reflects the store.
- `src/server.js` (Express setup, session cookie configuration, `app.listen`) is I/O plumbing and is not part of this model.
- Template rendering, message strings and HTTP redirects are represented only as the abstract `Home.Outcome`. `renderHome` is modelled only through its second `getSessionUser` call, which determines the session the response leaves.
- The `GET /` and `GET /leaderboard` routes are not modelled as handlers. They are a `getSessionUser` call followed by rendering, plus `getLeaderboard` for the second, and both of those are modelled.
- The allow-list contents (`src/data/secretKeywords`) are not part of this model. The list is a parameter.
- A missing `keyword` form field is modelled as the empty string, which is what the handler's `|| ''` substitutes.
- Home.SubmitKeyword: the `keyword` field is modelled as a single string. A repeated field (`keyword=a&keyword=b`) arrives as an array under `express.urlencoded({ extended: false })` (`src/server.js:17`). For a logged-in user, `.trim()` at `src/routes/home.js:60` then throws a `TypeError`, which gives a server error and leaves the store unchanged. The model has no such outcome.
- Home.ValidatorLength: strings are sequences of whole code points, so a lone UTF-16 surrogate cannot be expressed; `isLength` counts a surrogate pair once, as the model counts its code point.
- JavaScript number semantics: ids, scores and points are unbounded integers.
- Concurrency: each request's effect on the store is one atomic step. Node runs one callback at a time, and the keyword route does no `await` between reading and writing the store, so for keyword submissions this is exact.
- Game.Register: the lookup and the creation are one step here, while the route awaits `bcrypt.hash` (`src/routes/auth.js:46`) between the lookup (`:37`) and `createUser` (`:47`). Two overlapping registrations of one free name can therefore both pass the lookup and both create a record. `Game.RunKeepsUsernamesDistinct` and `Game.ReachableLeaderboardUnique` hold only for registrations that do not overlap. `Game.Create`, which always appends, is the event that covers the overlapping case, and the validity and growth lemmas hold for it too.

=== FILE: game.dfy ===
/** The store as the application drives it: starting empty, changed only by
    `createUser` and by keyword submissions, each request's effect one atomic
    step. The invariants here are the ones every reachable store satisfies. */
module Game {
  import opened Wrappers
  import opened Text
  import opened UserStore
  import opened Home
  import opened Leaderboard

  /** A request that can change the store. `Register` is what the
      registration route does with a validated, lower-cased username: look
      the name up, and create only when it is free, as one step. `Create`
      appends without the lookup; it stands for a registration whose lookup
      no longer reflects the store, as when two registrations of one name
      overlap across the route's password-hashing `await`. */
  datatype Event =
    | Create(username: string, passwordHash: string)
    | Register(username: string, passwordHash: string)
    | Submit(session: Option<PublicUser>, rawKeyword: string)

  function Step(users: Store, event: Event, secretKeywords: seq<string>): Store {
    match event
    case Create(name, hash) => CreateUser(users, name, hash).0
    case Register(name, hash) =>
      if FindByUsername(users, name).None? then CreateUser(users, name, hash).0 else users
    case Submit(session, raw) => SubmitKeyword(session, users, raw, secretKeywords).users
  }

  function Run(users: Store, events: seq<Event>, secretKeywords: seq<string>): Store
    decreases |events|
  {
    if |events| == 0 then users
    else Run(Step(users, events[0], secretKeywords), events[1..], secretKeywords)
  }

  /** Each record's score is what its redeemed keywords are worth. */
  ghost predicate ScoresMatchKeywords(users: Store) {
    forall i :: 0 <= i < |users| ==> users[i].score == KeywordPoints * |users[i].usedKeywords|
  }

  /** Every redeemed keyword is one of the secret keywords. */
  ghost predicate KeywordsAllowed(users: Store, secretKeywords: seq<string>) {
    forall i, j :: 0 <= i < |users| && 0 <= j < |users[i].usedKeywords| ==>
      users[i].usedKeywords[j] in secretKeywords
  }

  ghost predicate Valid(users: Store, secretKeywords: seq<string>) {
    && SequentialIds(users)
    && KeywordsDistinct(users)
    && KeywordsAllowed(users, secretKeywords)
    && ScoresMatchKeywords(users)
  }

  lemma CreatePreservesValid(users: Store, username: string, passwordHash: string, secretKeywords: seq<string>)
    requires Valid(users, secretKeywords)
    ensures Valid(CreateUser(users, username, passwordHash).0, secretKeywords)
  {
    CreateUserKeepsIdsSequential(users, username, passwordHash);
  }

  lemma SubmitPreservesValid(session: Option<PublicUser>, users: Store, rawKeyword: string,
                             secretKeywords: seq<string>)
    requires Valid(users, secretKeywords)
    ensures Valid(SubmitKeyword(session, users, rawKeyword, secretKeywords).users, secretKeywords)
  {
    var r := SubmitKeyword(session, users, rawKeyword, secretKeywords);
    SubmitKeywordChangesStoreOnlyOnAward(session, users, rawKeyword, secretKeywords);
    if r.outcome.Awarded? {
      SubmitKeywordAwardRecords(session, users, rawKeyword, secretKeywords);
      RecordPreservesValid(users, session.value.id, SanitizeKeyword(rawKeyword), secretKeywords);
    }
  }

  /** Recording a first redemption of an allowed, already lower-case keyword
      worth `KeywordPoints` keeps the store valid. */
  lemma RecordPreservesValid(users: Store, id: int, k: string, secretKeywords: seq<string>)
    requires Valid(users, secretKeywords)
    requires FindById(users, id).Some?
    requires k in secretKeywords && Lower(k) == k && k !in FindById(users, id).value.usedKeywords
    ensures Valid(RecordKeywordUsage(users, id, k, KeywordPoints).0, secretKeywords)
  {
    FindByIdSequential(users, id);
    RecordKeywordUsageSequential(users, id, k, KeywordPoints);
    var i := id - 1;
    var s := users[i := users[i].(usedKeywords := users[i].usedKeywords + [k],
                                  score := users[i].score + KeywordPoints)];
    assert NoDuplicates(s[i].usedKeywords);
    assert forall j :: 0 <= j < |s| && j != i ==> s[j] == users[j];
  }

  lemma StepPreservesValid(users: Store, event: Event, secretKeywords: seq<string>)
    requires Valid(users, secretKeywords)
    ensures Valid(Step(users, event, secretKeywords), secretKeywords)
  {
    match event
    case Create(name, hash) => CreatePreservesValid(users, name, hash, secretKeywords);
    case Register(name, hash) =>
      if FindByUsername(users, name).None? {
        CreatePreservesValid(users, name, hash, secretKeywords);
      }
    case Submit(session, raw) => SubmitPreservesValid(session, users, raw, secretKeywords);
  }

  /** Every store the application can reach keeps ids `1..n`, keyword lists
      without repeats and drawn from the secret keywords, and scores worth
      exactly `KeywordPoints` per redeemed keyword. */
  lemma {:induction false} RunPreservesValid(users: Store, events: seq<Event>, secretKeywords: seq<string>)
    requires Valid(users, secretKeywords)
    ensures Valid(Run(users, events, secretKeywords), secretKeywords)
    decreases |events|
  {
    if |events| > 0 {
      StepPreservesValid(users, events[0], secretKeywords);
      RunPreservesValid(Step(users, events[0], secretKeywords), events[1..], secretKeywords);
    }
  }

  /** The empty store the process starts with is valid, so every store built
      from it is. */
  lemma ReachableStoresAreValid(events: seq<Event>, secretKeywords: seq<string>)
    ensures Valid(Run([], events, secretKeywords), secretKeywords)
  {
    RunPreservesValid([], events, secretKeywords);
  }

  /** One step never removes a record and never lowers a score, shortens a
      keyword list or changes a record's id or username. */
  ghost predicate Grows(before: Store, after: Store) {
    && |before| <= |after|
    && forall i :: 0 <= i < |before| ==>
         && after[i].id == before[i].id
         && after[i].username == before[i].username
         && after[i].score >= before[i].score
         && |after[i].usedKeywords| >= |before[i].usedKeywords|
         && after[i].usedKeywords[..|before[i].usedKeywords|] == before[i].usedKeywords
  }

  lemma GrowsTransitive(a: Store, b: Store, c: Store)
    requires Grows(a, b) && Grows(b, c)
    ensures Grows(a, c)
  {
    forall i | 0 <= i < |a|
      ensures c[i].usedKeywords[..|a[i].usedKeywords|] == a[i].usedKeywords
    {
      var n := |a[i].usedKeywords|;
      assert c[i].usedKeywords[..n] == c[i].usedKeywords[..|b[i].usedKeywords|][..n];
    }
  }

  lemma RecordGrows(users: Store, id: int, k: string)
    ensures Grows(users, RecordKeywordUsage(users, id, k, KeywordPoints).0)
  {
    RecordKeywordUsageMonotone(users, id, k, KeywordPoints);
    RecordKeywordUsageFrame(users, id, k, KeywordPoints);
  }

  lemma SubmitGrows(session: Option<PublicUser>, users: Store, rawKeyword: string, secretKeywords: seq<string>)
    ensures Grows(users, SubmitKeyword(session, users, rawKeyword, secretKeywords).users)
  {
    var r := SubmitKeyword(session, users, rawKeyword, secretKeywords);
    SubmitKeywordChangesStoreOnlyOnAward(session, users, rawKeyword, secretKeywords);
    if r.outcome.Awarded? {
      SubmitKeywordAwardRecords(session, users, rawKeyword, secretKeywords);
      RecordGrows(users, session.value.id, SanitizeKeyword(rawKeyword));
    }
  }

  lemma StepGrows(users: Store, event: Event, secretKeywords: seq<string>)
    ensures Grows(users, Step(users, event, secretKeywords))
  {
    match event
    case Create(name, hash) =>
    case Register(name, hash) =>
    case Submit(session, raw) => SubmitGrows(session, users, raw, secretKeywords);
  }

  /** Over any run there is no deletion: every record survives with its id
      and username, its score never drops, and its keyword list only grows
      at the end. */
  lemma {:induction false} RunGrows(users: Store, events: seq<Event>, secretKeywords: seq<string>)
    ensures Grows(users, Run(users, events, secretKeywords))
    decreases |events|
  {
    if |events| > 0 {
      var next := Step(users, events[0], secretKeywords);
      StepGrows(users, events[0], secretKeywords);
      RunGrows(next, events[1..], secretKeywords);
      GrowsTransitive(users, next, Run(next, events[1..], secretKeywords));
    }
  }

  /** A change that keeps every record's username and adds none keeps the
      usernames distinct. */
  lemma SameNamesKeepDistinct(before: Store, after: Store)
    requires Grows(before, after) && |after| == |before|
    requires DistinctUsernames(before)
    ensures DistinctUsernames(after)
  {
  }

  /** Registrations and keyword submissions keep usernames distinct. */
  lemma StepKeepsUsernamesDistinct(users: Store, event: Event, secretKeywords: seq<string>)
    requires DistinctUsernames(users)
    requires !event.Create?
    ensures DistinctUsernames(Step(users, event, secretKeywords))
  {
    match event
    case Register(name, hash) =>
      if FindByUsername(users, name).None? {
        CreateUserKeepsUsernamesDistinct(users, name, hash);
      }
    case Submit(session, raw) =>
      SubmitGrows(session, users, raw, secretKeywords);
      SameNamesKeepDistinct(users, Step(users, event, secretKeywords));
  }

  /** When every user comes from the registration route, usernames stay
      distinct over any run. */
  lemma {:induction false} RunKeepsUsernamesDistinct(users: Store, events: seq<Event>, secretKeywords: seq<string>)
    requires DistinctUsernames(users)
    requires forall i :: 0 <= i < |events| ==> !events[i].Create?
    ensures DistinctUsernames(Run(users, events, secretKeywords))
    decreases |events|
  {
    if |events| > 0 {
      StepKeepsUsernamesDistinct(users, events[0], secretKeywords);
      RunKeepsUsernamesDistinct(Step(users, events[0], secretKeywords), events[1..], secretKeywords);
    }
  }

  /** In every store the application reaches through registration and
      keyword submissions, the leaderboard is the one ranked permutation of
      the public views, so the order `getLeaderboard` returns does not depend
      on how the sort breaks ties. */
  lemma ReachableLeaderboardUnique(events: seq<Event>, secretKeywords: seq<string>)
    requires forall i :: 0 <= i < |events| ==> !events[i].Create?
    ensures var users := Run([], events, secretKeywords);
            forall board :: Ranked(board) && multiset(board) == multiset(Publics(users))
                            ==> board == GetLeaderboard(users)
  {
    var users := Run([], events, secretKeywords);
    RunKeepsUsernamesDistinct([], events, secretKeywords);
    forall board | Ranked(board) && multiset(board) == multiset(Publics(users))
      ensures board == GetLeaderboard(users)
    {
      LeaderboardUnique(users, board);
    }
  }
}

=== FILE: home.dfy ===
/** The session reconciliation and the `POST /submit-keyword` decision of
    `src/routes/home.js`, without Express: a request is the session's user
    value, the current store and the raw form field; a response is an
    abstract outcome, the new store and the new session value. Rendering
    and the message strings are not modelled; the `user` a handler passes
    to the template is the one it leaves in the session. */
module Home {
  import opened Wrappers
  import opened Text
  import opened UserStore

  /** `KEYWORD_POINTS`: every first redemption is worth this much. */
  const KeywordPoints: int := 100

  /** The value of `getSessionUser` and what it leaves in `req.session.user`. */
  datatype SessionLookup = SessionLookup(user: Option<PublicUser>, session: Option<PublicUser>)

  /** `getSessionUser`: no session user gives nothing; a session user whose id
      the store no longer has is dropped from the session; otherwise the
      session is overwritten with the store's current public view, which is
      also returned. */
  function GetSessionUser(session: Option<PublicUser>, users: Store): (r: SessionLookup)
    ensures r.session == r.user
    ensures r.user.Some? <==> session.Some? && FindById(users, session.value.id).Some?
    ensures r.user.Some? ==> r.user == ToPublicUser(FindById(users, session.value.id))
    ensures r.user.Some? ==> FindById(users, r.user.value.id).Some?
                             && r.user.value.score == FindById(users, r.user.value.id).value.score
  {
    match session
    case None => SessionLookup(None, None)
    case Some(s) =>
      var stored := FindById(users, s.id);
      if stored.None? then SessionLookup(None, None)
      else
        var publicUser := ToPublicUser(stored);
        SessionLookup(publicUser, publicUser)
  }

  /** Resolving the session a second time against the same store changes
      nothing: the refreshed session already is the store's view. */
  lemma GetSessionUserStable(session: Option<PublicUser>, users: Store)
    ensures var first := GetSessionUser(session, users);
            GetSessionUser(first.session, users) == first
  {
  }

  /** The two messages the keyword validator can report, in chain order. */
  datatype KeywordError = EmptyKeyword | NotRecognized

  datatype Outcome =
    | RedirectLogin
    | ValidationError(errors: seq<KeywordError>, value: string)
    | AlreadyClaimed(keyword: string)
    | Awarded(keyword: string, points: int)

  datatype Response = Response(outcome: Outcome, users: Store, session: Option<PublicUser>)

  /** The validator's sanitizers `trim()` then `toLowerCase()`, which rewrite
      the `keyword` field before the handler runs. A missing field is the
      empty string. */
  function SanitizeKeyword(raw: string): (r: string)
    ensures Trimmed(r)
    ensures |r| <= |raw|
    ensures forall i :: 0 <= i < |r| ==> !IsUpper(r[i])
  {
    var t := Trim(raw);
    LowerKeepsTrimmed(t);
    Lower(t)
  }

  /** U+FE0E and U+FE0F, the variation selectors that pick text or emoji
      presentation of the character before them. */
  predicate IsPresentationSelector(c: char) {
    c == '\U{FE0E}' || c == '\U{FE0F}'
  }

  /** The length `isLength` measures: characters, with the presentation
      selectors not counted. (It also counts a surrogate pair once, which a
      Dafny `char`, a whole code point, already is.) */
  function ValidatorLength(s: string): (n: nat)
    ensures n <= |s|
    ensures n == 0 <==> forall i :: 0 <= i < |s| ==> IsPresentationSelector(s[i])
    decreases |s|
  {
    if |s| == 0 then 0
    else
      assert forall i :: 1 <= i < |s| ==> s[i] == s[1..][i - 1];
      (if IsPresentationSelector(s[0]) then 0 else 1) + ValidatorLength(s[1..])
  }

  /** The validator's checks `isLength({ min: 1 })` and `isIn(secretKeywords)`,
      both run, their failures collected in order. */
  function ValidateKeyword(keyword: string, secretKeywords: seq<string>): (errors: seq<KeywordError>)
    ensures errors == [] <==> ValidatorLength(keyword) >= 1 && keyword in secretKeywords
    ensures EmptyKeyword in errors <==> forall i :: 0 <= i < |keyword| ==> IsPresentationSelector(keyword[i])
    ensures NotRecognized in errors <==> keyword !in secretKeywords
    ensures |errors| <= 2
    ensures |errors| == 2 ==> errors == [EmptyKeyword, NotRecognized]
  {
    (if ValidatorLength(keyword) < 1 then [EmptyKeyword] else [])
    + (if keyword in secretKeywords then [] else [NotRecognized])
  }

  /** The `POST /submit-keyword` handler. The session is resolved first; only
      then are the validator's results looked at; a valid keyword is recorded
      for the session's user with `KeywordPoints`, the session is set to the
      updated public view, and the home page is rendered, which resolves the
      session once more. */
  function SubmitKeyword(session: Option<PublicUser>, users: Store, rawKeyword: string,
                         secretKeywords: seq<string>): (r: Response)
    ensures |r.users| == |users|
    ensures !r.outcome.RedirectLogin? ==>
              session.Some? && r.session == ToPublicUser(FindById(r.users, session.value.id))
    ensures r.session.Some? ==> FindById(r.users, r.session.value.id).Some?
                                && r.session == ToPublicUser(FindById(r.users, r.session.value.id))
  {
    var keyword := SanitizeKeyword(rawKeyword);
    var errors := ValidateKeyword(keyword, secretKeywords);
    var current := GetSessionUser(session, users);
    if current.user.None? then
      Response(RedirectLogin, users, current.session)
    else
      var submitted := Trim(keyword);
      var normalized := Lower(submitted);
      if errors != [] then
        Response(ValidationError(errors, submitted), users, GetSessionUser(current.session, users).session)
      else
        var (updatedUsers, usage) := RecordKeywordUsage(users, current.user.value.id, normalized, KeywordPoints);
        if usage.user.None? then
          Response(RedirectLogin, updatedUsers, None)
        else
          var rendered := GetSessionUser(ToPublicUser(usage.user), updatedUsers);
          if usage.alreadyUsed then
            Response(AlreadyClaimed(normalized), updatedUsers, rendered.session)
          else
            Response(Awarded(normalized, KeywordPoints), updatedUsers, rendered.session)
  }

  /** The handler's re-trim and re-lower-case of the sanitized field change
      nothing: the keyword recorded is the one the validator accepted. */
  lemma NormalizeSanitized(rawKeyword: string)
    ensures Lower(Trim(SanitizeKeyword(rawKeyword))) == SanitizeKeyword(rawKeyword)
  {
    var k := SanitizeKeyword(rawKeyword);
    TrimOfTrimmed(k);
    LowerIdempotent(Trim(rawKeyword));
  }

  /** The whole decision, stated without the handler's intermediate steps:
      no resolvable session user means a redirect whatever was submitted;
      then an empty (or selector-only) or unknown keyword is a validation
      error; then a keyword the user already holds is "already claimed";
      anything else is awarded `KeywordPoints`. In particular the second redirect, after recording,
      is never taken. */
  lemma SubmitKeywordDecision(session: Option<PublicUser>, users: Store, rawKeyword: string,
                              secretKeywords: seq<string>)
    ensures var current := GetSessionUser(session, users);
            var k := SanitizeKeyword(rawKeyword);
            SubmitKeyword(session, users, rawKeyword, secretKeywords).outcome ==
              if current.user.None? then RedirectLogin
              else if ValidatorLength(k) == 0 || k !in secretKeywords then ValidationError(ValidateKeyword(k, secretKeywords), k)
              else if k in FindById(users, current.user.value.id).value.usedKeywords then AlreadyClaimed(k)
              else Awarded(k, KeywordPoints)
  {
    NormalizeSanitized(rawKeyword);
    TrimOfTrimmed(SanitizeKeyword(rawKeyword));
  }

  /** Only an award changes the store; a redirect, a validation failure and
      an "already claimed" answer leave it exactly as it was. */
  lemma SubmitKeywordChangesStoreOnlyOnAward(session: Option<PublicUser>, users: Store, rawKeyword: string,
                                             secretKeywords: seq<string>)
    ensures var r := SubmitKeyword(session, users, rawKeyword, secretKeywords);
            !r.outcome.Awarded? ==> r.users == users
  {
  }

  /** A redirect happens exactly when the session has no user the store
      knows, and it leaves no user in the session. */
  lemma SubmitKeywordRedirects(session: Option<PublicUser>, users: Store, rawKeyword: string,
                               secretKeywords: seq<string>)
    ensures var r := SubmitKeyword(session, users, rawKeyword, secretKeywords);
            && (r.outcome.RedirectLogin? <==> GetSessionUser(session, users).user.None?)
            && (r.outcome.RedirectLogin? ==> r.session.None?)
  {
    SubmitKeywordDecision(session, users, rawKeyword, secretKeywords);
  }

  /** An award adds exactly `KeywordPoints` to the session user's stored
      score, records the sanitized keyword for them, changes no other record,
      and leaves the session showing the new score. */
  lemma SubmitKeywordAward(session: Option<PublicUser>, users: Store, rawKeyword: string,
                           secretKeywords: seq<string>)
    requires SubmitKeyword(session, users, rawKeyword, secretKeywords).outcome.Awarded?
    ensures var r := SubmitKeyword(session, users, rawKeyword, secretKeywords);
            var id := session.value.id;
            var k := SanitizeKeyword(rawKeyword);
            && r.outcome == Awarded(k, KeywordPoints)
            && k in secretKeywords
            && FindById(users, id).Some? && FindById(r.users, id).Some?
            && FindById(r.users, id).value.score == FindById(users, id).value.score + KeywordPoints
            && FindById(r.users, id).value.usedKeywords == FindById(users, id).value.usedKeywords + [k]
            && (forall j :: 0 <= j < |users| && users[j].id != id ==> r.users[j] == users[j])
            && r.session == ToPublicUser(FindById(r.users, id))
  {
    var id := session.value.id;
    var k := SanitizeKeyword(rawKeyword);
    SubmitKeywordDecision(session, users, rawKeyword, secretKeywords);
    NormalizeSanitized(rawKeyword);
    TrimOfTrimmed(k);
    RecordKeywordUsageAwards(users, id, k, KeywordPoints);
    RecordKeywordUsageFrame(users, id, k, KeywordPoints);
  }

  /** An award is `recordKeywordUsage` of the sanitized keyword, a first
      redemption of an allowed keyword, for the session's user. */
  lemma SubmitKeywordAwardRecords(session: Option<PublicUser>, users: Store, rawKeyword: string,
                                  secretKeywords: seq<string>)
    requires SubmitKeyword(session, users, rawKeyword, secretKeywords).outcome.Awarded?
    ensures var id := session.value.id;
            var k := SanitizeKeyword(rawKeyword);
            && FindById(users, id).Some?
            && k in secretKeywords && Lower(k) == k
            && k !in FindById(users, id).value.usedKeywords
            && SubmitKeyword(session, users, rawKeyword, secretKeywords).users
               == RecordKeywordUsage(users, id, k, KeywordPoints).0
  {
    var k := SanitizeKeyword(rawKeyword);
    SubmitKeywordDecision(session, users, rawKeyword, secretKeywords);
    NormalizeSanitized(rawKeyword);
    TrimOfTrimmed(k);
    LowerIdempotent(Trim(rawKeyword));
  }

  /** The handler sees the form field only through the validator's
      sanitizers: two raw values that sanitize alike get the same response. */
  lemma SubmitKeywordSeesSanitizedOnly(session: Option<PublicUser>, users: Store, rawKeyword: string,
                                       again: string, secretKeywords: seq<string>)
    requires SanitizeKeyword(again) == SanitizeKeyword(rawKeyword)
    ensures SubmitKeyword(session, users, again, secretKeywords)
            == SubmitKeyword(session, users, rawKeyword, secretKeywords)
  {
  }

  /** Submitting a keyword that was just awarded again, with the session the
      first submission left, is "already claimed" and changes nothing; by
      `SubmitKeywordSeesSanitizedOnly` the same holds for the keyword in any
      letter case and with any surrounding white space. */
  lemma SubmitKeywordTwiceAwardsOnce(session: Option<PublicUser>, users: Store, rawKeyword: string,
                                     secretKeywords: seq<string>)
    requires SubmitKeyword(session, users, rawKeyword, secretKeywords).outcome.Awarded?
    ensures var first := SubmitKeyword(session, users, rawKeyword, secretKeywords);
            var second := SubmitKeyword(first.session, first.users, rawKeyword, secretKeywords);
            && second.outcome == AlreadyClaimed(SanitizeKeyword(rawKeyword))
            && second.users == first.users
            && second.session == first.session
  {
    var first := SubmitKeyword(session, users, rawKeyword, secretKeywords);
    var id := session.value.id;
    var k := SanitizeKeyword(rawKeyword);
    SubmitKeywordAward(session, users, rawKeyword, secretKeywords);
    var stored := FindById(first.users, id).value;
    assert k in stored.usedKeywords;
    assert GetSessionUser(first.session, first.users).user == first.session;
    SubmitKeywordDecision(first.session, first.users, rawKeyword, secretKeywords);
    NormalizeSanitized(rawKeyword);
    TrimOfTrimmed(k);
    SubmitKeywordChangesStoreOnlyOnAward(first.session, first.users, rawKeyword, secretKeywords);
  }
}

=== FILE: leaderboard.dfy ===
/** `getLeaderboard` of `src/store/userStore.js`: the public views of all
    users, highest score first, equal scores by username.

    The JavaScript sorts a copy of the records and then maps `toPublicUser`
    over it; the comparator reads only `score` and `username`, which the
    public view keeps, so this model maps first and sorts the views. The
    sort is a stable insertion sort, as `Array.prototype.sort` is stable;
    `LeaderboardUnique` shows that with distinct usernames no other
    correct sort could produce a different board. */
module Leaderboard {
  import opened Text
  import opened UserStore

  /** `a` belongs strictly above `b`: the comparator of `getLeaderboard`
      is negative for `(a, b)`. */
  predicate RanksAbove(a: PublicUser, b: PublicUser) {
    a.score > b.score || (a.score == b.score && LexLess(a.username, b.username))
  }

  /** `a` may be listed before `b`. */
  predicate InOrder(a: PublicUser, b: PublicUser) {
    !RanksAbove(b, a)
  }

  /** Every adjacent pair is in order. */
  predicate Ranked(board: seq<PublicUser>) {
    forall i :: 0 <= i < |board| - 1 ==> InOrder(board[i], board[i + 1])
  }

  /** Of two entries, at least one may come first. */
  lemma InOrderTotal(a: PublicUser, b: PublicUser)
    ensures InOrder(a, b) || InOrder(b, a)
  {
    if a.score == b.score && LexLess(a.username, b.username) {
      LexLessAsymmetric(a.username, b.username);
    }
  }

  lemma InOrderTransitive(a: PublicUser, b: PublicUser, c: PublicUser)
    requires InOrder(a, b) && InOrder(b, c)
    ensures InOrder(a, c)
  {
    if a.score == b.score == c.score && LexLess(c.username, a.username) && a.username != b.username {
      LexLessTotal(a.username, b.username);
      LexLessTransitive(c.username, a.username, b.username);
    }
  }

  /** Ranked by adjacent pairs is ranked by all pairs. */
  lemma {:induction false} RankedPairwise(board: seq<PublicUser>)
    requires Ranked(board)
    ensures forall i, j :: 0 <= i < j < |board| ==> InOrder(board[i], board[j])
    decreases |board|
  {
    if |board| > 1 {
      RankedPairwise(board[1..]);
      forall j | 1 < j < |board|
        ensures InOrder(board[0], board[j])
      {
        assert InOrder(board[1], board[j]) by {
          assert board[1] == board[1..][0] && board[j] == board[1..][j - 1];
        }
        InOrderTransitive(board[0], board[1], board[j]);
      }
    }
  }

  /** Inserts `x` before the first entry it may precede. Placing `x` ahead of
      entries it ties with keeps earlier store records ahead of later ones. */
  function Insert(x: PublicUser, board: seq<PublicUser>): (r: seq<PublicUser>)
    requires Ranked(board)
    ensures |r| == |board| + 1
    ensures Ranked(r)
    ensures multiset(r) == multiset(board) + multiset{x}
    ensures r[0] == x || (|board| > 0 && r[0] == board[0])
    decreases |board|
  {
    if |board| == 0 then [x]
    else if InOrder(x, board[0]) then [x] + board
    else
      var rest := Insert(x, board[1..]);
      InOrderTotal(x, board[0]);
      assert board == [board[0]] + board[1..];
      [board[0]] + rest
  }

  function Sort(board: seq<PublicUser>): (r: seq<PublicUser>)
    ensures |r| == |board|
    ensures Ranked(r)
    ensures multiset(r) == multiset(board)
    decreases |board|
  {
    if |board| == 0 then []
    else
      assert board == [board[0]] + board[1..];
      Insert(board[0], Sort(board[1..]))
  }

  /** The public view of each record, in store order. */
  function Publics(users: Store): (r: seq<PublicUser>)
    ensures |r| == |users|
    ensures forall i :: 0 <= i < |users| ==> r[i] == Public(users[i])
  {
    seq(|users|, i requires 0 <= i < |users| => Public(users[i]))
  }

  /** `getLeaderboard`: one public view per stored user, ranked by score
      descending and then username ascending. The store is an input value
      and is not changed. */
  function GetLeaderboard(users: Store): (r: seq<PublicUser>)
    ensures |r| == |users|
    ensures multiset(r) == multiset(Publics(users))
    ensures Ranked(r)
  {
    Sort(Publics(users))
  }

  /** No two different entries of `m` share a username. */
  ghost predicate UniqueNames(m: multiset<PublicUser>) {
    forall x, y :: x in m && y in m && x.username == y.username ==> x == y
  }

  lemma RankedTail(board: seq<PublicUser>)
    requires Ranked(board) && |board| > 0
    ensures Ranked(board[1..])
  {
    forall i | 0 <= i < |board[1..]| - 1
      ensures InOrder(board[1..][i], board[1..][i + 1])
    {
      assert board[1..][i] == board[i + 1] && board[1..][i + 1] == board[i + 2];
    }
  }

  /** Two ranked arrangements of the same entries, no two of which share a
      username, start with the same entry. */
  lemma RankedHeadsAgree(a: seq<PublicUser>, b: seq<PublicUser>)
    requires Ranked(a) && Ranked(b) && |a| > 0
    requires multiset(a) == multiset(b) && UniqueNames(multiset(a))
    ensures |b| > 0 && a[0] == b[0]
  {
    assert a[0] in multiset(b);
    var k :| 0 <= k < |b| && b[k] == a[0];
    var m :| 0 <= m < |a| && a[m] == b[0];
    if a[0] != b[0] {
      RankedPairwise(a);
      RankedPairwise(b);
      assert InOrder(a[0], a[m]);
      assert InOrder(b[0], b[k]);
      LexLessTotal(a[0].username, b[0].username);
      assert false;
    }
  }

  /** When usernames are distinct, a ranked arrangement of a given multiset of
      entries is unique: any correct sort yields the same board. */
  lemma {:induction false} RankedUnique(a: seq<PublicUser>, b: seq<PublicUser>)
    requires Ranked(a) && Ranked(b)
    requires multiset(a) == multiset(b)
    requires UniqueNames(multiset(a))
    ensures a == b
    decreases |a|
  {
    assert |a| == |multiset(a)| == |b|;
    if |a| > 0 {
      RankedHeadsAgree(a, b);
      assert a == [a[0]] + a[1..] && b == [b[0]] + b[1..];
      assert multiset(a[1..]) == multiset(a) - multiset{a[0]};
      assert multiset(b[1..]) == multiset(b) - multiset{b[0]};
      RankedTail(a);
      RankedTail(b);
      RankedUnique(a[1..], b[1..]);
    }
  }

  /** With distinct usernames in the store, the leaderboard is the one ranked
      permutation of the public views. */
  lemma LeaderboardUnique(users: Store, board: seq<PublicUser>)
    requires DistinctUsernames(users)
    requires Ranked(board) && multiset(board) == multiset(Publics(users))
    ensures board == GetLeaderboard(users)
  {
    var p := Publics(users);
    forall x: PublicUser, y: PublicUser | x in multiset(p) && y in multiset(p) && x.username == y.username
      ensures x == y
    {
      var i :| 0 <= i < |p| && p[i] == x;
      var j :| 0 <= j < |p| && p[j] == y;
      assert users[i].username == users[j].username;
    }
    RankedUnique(board, GetLeaderboard(users));
  }
}

=== FILE: text.dfy ===
/** String helpers the store and the keyword route rely on: lower-casing,
    white-space trimming, and the order used to break score ties on usernames. */
module Text {

  predicate IsUpper(c: char) {
    'A' <= c <= 'Z'
  }

  /** Lower-cases one ASCII letter and leaves every other character alone. */
  function LowerChar(c: char): char {
    if IsUpper(c) then (c as int + 32) as char else c
  }

  /** `String.prototype.toLowerCase`, restricted to the ASCII letters. */
  function Lower(s: string): (r: string)
    ensures |r| == |s|
    ensures forall i :: 0 <= i < |s| ==> r[i] == LowerChar(s[i])
    ensures forall i :: 0 <= i < |r| ==> !IsUpper(r[i])
  {
    seq(|s|, i requires 0 <= i < |s| => LowerChar(s[i]))
  }

  /** Lower-casing twice is lower-casing once: a stored keyword is its own
      normal form. */
  lemma LowerIdempotent(s: string)
    ensures Lower(Lower(s)) == Lower(s)
  {
  }

  /** The code points ECMAScript counts as white space or line terminators,
      which is what `trim` strips and what the regular expression `\s` matches. */
  const SpaceCodes: set<int> :=
    {0x09, 0x0A, 0x0B, 0x0C, 0x0D, 0x20, 0xA0, 0x1680,
     0x2000, 0x2001, 0x2002, 0x2003, 0x2004, 0x2005, 0x2006, 0x2007, 0x2008, 0x2009, 0x200A,
     0x2028, 0x2029, 0x202F, 0x205F, 0x3000, 0xFEFF}

  predicate IsSpace(c: char) {
    c as int in SpaceCodes
  }

  /** No white space at either end. */
  predicate Trimmed(s: string) {
    |s| == 0 || (!IsSpace(s[0]) && !IsSpace(s[|s| - 1]))
  }

  /** The first position at or after `i` that does not hold white space
      (`|s|` if there is none). */
  function SkipSpaces(s: string, i: nat): (j: nat)
    requires i <= |s|
    ensures i <= j <= |s|
    ensures forall k :: i <= k < j ==> IsSpace(s[k])
    ensures j == |s| || !IsSpace(s[j])
    decreases |s| - i
  {
    if i < |s| && IsSpace(s[i]) then SkipSpaces(s, i + 1) else i
  }

  /** The end of `s[lo..j]` once its trailing white space is dropped. */
  function DropTrailingSpaces(s: string, lo: nat, j: nat): (k: nat)
    requires lo <= j <= |s|
    ensures lo <= k <= j
    ensures forall m :: k <= m < j ==> IsSpace(s[m])
    ensures k == lo || !IsSpace(s[k - 1])
    decreases j - lo
  {
    if j > lo && IsSpace(s[j - 1]) then DropTrailingSpaces(s, lo, j - 1) else j
  }

  /** How many leading characters `trim` removes. */
  function LeadingSpaces(s: string): (n: nat)
    ensures n <= |s|
  {
    SkipSpaces(s, 0)
  }

  /** `String.prototype.trim`: the slice of `s` left after removing the white
      space, and only the white space, at both ends. */
  function Trim(s: string): (r: string)
    ensures Trimmed(r)
    ensures LeadingSpaces(s) + |r| <= |s|
    ensures r == s[LeadingSpaces(s)..LeadingSpaces(s) + |r|]
    ensures forall i :: 0 <= i < LeadingSpaces(s) ==> IsSpace(s[i])
    ensures forall i :: LeadingSpaces(s) + |r| <= i < |s| ==> IsSpace(s[i])
  {
    var lo := SkipSpaces(s, 0);
    var hi := DropTrailingSpaces(s, lo, |s|);
    s[lo..hi]
  }

  /** Trimming a string that already has no white space at its ends changes nothing. */
  lemma TrimOfTrimmed(s: string)
    requires Trimmed(s)
    ensures Trim(s) == s
  {
  }

  /** Lower-casing neither creates nor removes white space, so a trimmed
      string stays trimmed once lower-cased. */
  lemma LowerKeepsTrimmed(s: string)
    requires Trimmed(s)
    ensures Trimmed(Lower(s))
  {
  }

  /** Strict lexicographic order on strings by character code: a proper
      prefix comes first, otherwise the first differing character decides. */
  predicate LexLess(a: string, b: string)
    decreases |a|
  {
    if |a| == 0 then |b| > 0
    else |b| > 0 && (a[0] < b[0] || (a[0] == b[0] && LexLess(a[1..], b[1..])))
  }

  lemma {:induction false} LexLessIrreflexive(a: string)
    ensures !LexLess(a, a)
    decreases |a|
  {
    if |a| > 0 {
      LexLessIrreflexive(a[1..]);
    }
  }

  lemma {:induction false} LexLessAsymmetric(a: string, b: string)
    requires LexLess(a, b)
    ensures !LexLess(b, a)
    decreases |a|
  {
    if |a| > 0 && a[0] == b[0] {
      LexLessAsymmetric(a[1..], b[1..]);
    }
  }

  lemma {:induction false} LexLessTransitive(a: string, b: string, c: string)
    requires LexLess(a, b) && LexLess(b, c)
    ensures LexLess(a, c)
    decreases |a|
  {
    if |a| > 0 && a[0] == b[0] && b[0] == c[0] {
      LexLessTransitive(a[1..], b[1..], c[1..]);
    }
  }

  /** Any two different strings are ordered one way or the other. */
  lemma {:induction false} LexLessTotal(a: string, b: string)
    requires a != b
    ensures LexLess(a, b) || LexLess(b, a)
    decreases |a|
  {
    if |a| > 0 && |b| > 0 && a[0] == b[0] {
      assert a == [a[0]] + a[1..] && b == [b[0]] + b[1..];
      LexLessTotal(a[1..], b[1..]);
    }
  }
}

=== FILE: user_store.dfy ===
/** The in-memory user store of `src/store/userStore.js`.

    The JavaScript module keeps one process-wide array `users` and mutates it
    in place; here the array is an immutable `Store` value and every operation
    that changes it returns the new store beside its result. The creation
    timestamp is not modelled. */
module UserStore {
  import opened Wrappers
  import opened Text

  datatype User = User(
    id: int,
    username: string,
    passwordHash: string,
    score: int,
    usedKeywords: seq<string>)

  /** The only view of a user that leaves the store: it has no field for the
      password hash or the redeemed keywords, so it cannot leak them. */
  datatype PublicUser = PublicUser(id: int, username: string, score: int)

  type Store = seq<User>

  /** What `recordKeywordUsage` returns. */
  datatype Usage = Usage(user: Option<User>, alreadyUsed: bool)

  /** Record `i` carries id `i + 1`: the shape every store built by
      `CreateUser` has, since there is no deletion. */
  ghost predicate SequentialIds(users: Store) {
    forall i :: 0 <= i < |users| ==> users[i].id == i + 1
  }

  ghost predicate DistinctUsernames(users: Store) {
    forall i, j :: 0 <= i < j < |users| ==> users[i].username != users[j].username
  }

  ghost predicate NoDuplicates(keywords: seq<string>) {
    forall i, j :: 0 <= i < j < |keywords| ==> keywords[i] != keywords[j]
  }

  /** Every user's redeemed-keyword list is free of repeats. */
  ghost predicate KeywordsDistinct(users: Store) {
    forall i :: 0 <= i < |users| ==> NoDuplicates(users[i].usedKeywords)
  }

  /** `users.push` of a fresh record whose id is one more than the old length,
      with score 0 and no redeemed keywords. Nothing is checked: a duplicate
      username is appended like any other. */
  function CreateUser(users: Store, username: string, passwordHash: string): (r: (Store, User))
    ensures |r.0| == |users| + 1 && r.0[..|users|] == users && r.0[|users|] == r.1
    ensures r.1.id == |users| + 1
    ensures r.1.username == username && r.1.passwordHash == passwordHash
    ensures r.1.score == 0 && r.1.usedKeywords == []
  {
    var user := User(|users| + 1, username, passwordHash, 0, []);
    (users + [user], user)
  }

  /** Creation keeps ids sequential; hence every id is unique, the ids grow
      strictly with the position, and the new id exceeds all earlier ones. */
  lemma CreateUserKeepsIdsSequential(users: Store, username: string, passwordHash: string)
    requires SequentialIds(users)
    ensures SequentialIds(CreateUser(users, username, passwordHash).0)
    ensures forall i :: 0 <= i < |users| ==> users[i].id < CreateUser(users, username, passwordHash).1.id
    ensures var s := CreateUser(users, username, passwordHash).0;
            forall i, j :: 0 <= i < j < |s| ==> s[i].id < s[j].id
  {
  }

  /** `users.find(pred)`: the position of the first record `matches` accepts. */
  function FirstIndex(users: Store, matches: User -> bool): (r: Option<nat>)
    ensures r.Some? ==> r.value < |users| && matches(users[r.value])
    ensures r.Some? ==> forall j :: 0 <= j < r.value ==> !matches(users[j])
    ensures r.None? ==> forall j :: 0 <= j < |users| ==> !matches(users[j])
    decreases |users|
  {
    if |users| == 0 then None
    else if matches(users[0]) then Some(0)
    else match FirstIndex(users[1..], matches)
      case None => None
      case Some(k) => Some(k + 1)
  }

  /** The first match is determined by the records up to and including it. */
  lemma FirstIndexIs(users: Store, matches: User -> bool, i: nat)
    requires i < |users| && matches(users[i])
    requires forall j :: 0 <= j < i ==> !matches(users[j])
    ensures FirstIndex(users, matches) == Some(i)
  {
    match FirstIndex(users, matches)
    case None =>
    case Some(k) =>
  }

  function IndexByUsername(users: Store, username: string): Option<nat> {
    FirstIndex(users, (u: User) => u.username == username)
  }

  function IndexById(users: Store, id: int): Option<nat> {
    FirstIndex(users, (u: User) => u.id == id)
  }

  /** A record whose username equals `username` exactly (with case), or
      nothing when no record has it; `FindByUsernameFirst` pins down which. */
  function FindByUsername(users: Store, username: string): (r: Option<User>)
    ensures r.None? <==> forall j :: 0 <= j < |users| ==> users[j].username != username
    ensures r.Some? ==> r.value.username == username
  {
    match IndexByUsername(users, username)
    case None => None
    case Some(i) => Some(users[i])
  }

  /** The lookup returns the earliest record with that username. */
  lemma FindByUsernameFirst(users: Store, username: string, i: nat)
    requires i < |users| && users[i].username == username
    requires forall j :: 0 <= j < i ==> users[j].username != username
    ensures FindByUsername(users, username) == Some(users[i])
  {
    FirstIndexIs(users, (u: User) => u.username == username, i);
  }

  /** A record whose id equals `id`, or nothing when none has it;
      `FindByIdFirst` pins down which. */
  function FindById(users: Store, id: int): (r: Option<User>)
    ensures r.None? <==> forall j :: 0 <= j < |users| ==> users[j].id != id
    ensures r.Some? ==> r.value.id == id
  {
    match IndexById(users, id)
    case None => None
    case Some(i) => Some(users[i])
  }

  /** The lookup returns the earliest record with that id. */
  lemma FindByIdFirst(users: Store, id: int, i: nat)
    requires i < |users| && users[i].id == id
    requires forall j :: 0 <= j < i ==> users[j].id != id
    ensures FindById(users, id) == Some(users[i])
  {
    FirstIndexIs(users, (u: User) => u.id == id, i);
  }

  /** With sequential ids, looking up `id` is indexing at `id - 1`, and any id
      outside `1..|users|` is absent. */
  lemma FindByIdSequential(users: Store, id: int)
    requires SequentialIds(users)
    ensures FindById(users, id) == (if 1 <= id <= |users| then Some(users[id - 1]) else None)
  {
    if 1 <= id <= |users| {
      FindByIdFirst(users, id, id - 1);
    }
  }

  /** Creating a user whose name is already taken still appends a record, and
      lookups by that name keep returning the older record. */
  lemma CreateUserDoesNotRejectDuplicates(users: Store, username: string, passwordHash: string)
    requires FindByUsername(users, username).Some?
    ensures |CreateUser(users, username, passwordHash).0| == |users| + 1
    ensures FindByUsername(CreateUser(users, username, passwordHash).0, username)
            == FindByUsername(users, username)
  {
    var s := CreateUser(users, username, passwordHash).0;
    var i := IndexByUsername(users, username).value;
    assert s[i] == users[i];
    assert forall j :: 0 <= j < i ==> s[j] == users[j];
    FirstIndexIs(s, (u: User) => u.username == username, i);
  }

  /** Usernames stay distinct when the caller only creates a user after
      finding no record with that name. */
  lemma CreateUserKeepsUsernamesDistinct(users: Store, username: string, passwordHash: string)
    requires DistinctUsernames(users)
    requires FindByUsername(users, username).None?
    ensures DistinctUsernames(CreateUser(users, username, passwordHash).0)
  {
  }

  function Public(u: User): PublicUser {
    PublicUser(u.id, u.username, u.score)
  }

  /** `toPublicUser`: nothing for a missing user, otherwise exactly the id,
      username and score of the record. */
  function ToPublicUser(user: Option<User>): (r: Option<PublicUser>)
    ensures r.None? <==> user.None?
    ensures r.Some? ==> r.value.id == user.value.id && r.value.username == user.value.username
                        && r.value.score == user.value.score
  {
    match user
    case None => None
    case Some(u) => Some(Public(u))
  }

  /** The public view does not depend on the password hash or on the
      redeemed keywords: two records that differ only there look the same. */
  lemma PublicViewHidesSecrets(u: User, passwordHash: string, usedKeywords: seq<string>)
    ensures ToPublicUser(Some(u)) == ToPublicUser(Some(u.(passwordHash := passwordHash, usedKeywords := usedKeywords)))
  {
  }

  /** `recordKeywordUsage`: find the user by id; lower-case the keyword; if the
      user already redeemed it, report `alreadyUsed` and change nothing;
      otherwise append it to that user's keywords and add `points` to their
      score. */
  function RecordKeywordUsage(users: Store, userId: int, keyword: string, points: int): (r: (Store, Usage))
    ensures |r.0| == |users|
    ensures FindById(users, userId).None? ==> r.0 == users && r.1 == Usage(None, false)
    ensures FindById(users, userId).Some? ==> r.1.user.Some? && r.1.user.value.id == userId
    ensures r.1.alreadyUsed <==> FindById(users, userId).Some?
                                 && Lower(keyword) in FindById(users, userId).value.usedKeywords
    ensures r.1.alreadyUsed ==> r.0 == users && r.1.user == FindById(users, userId)
  {
    match IndexById(users, userId)
    case None => (users, Usage(None, false))
    case Some(i) =>
      var user := users[i];
      var normalized := Lower(keyword);
      if normalized in user.usedKeywords then
        (users, Usage(Some(user), true))
      else
        var updated := user.(usedKeywords := user.usedKeywords + [normalized], score := user.score + points);
        (users[i := updated], Usage(Some(updated), false))
  }

  /** A first redemption appends the lower-cased keyword to the found user's
      list, adds exactly `points` to their score, leaves their id, name and
      hash alone, and returns the updated record, which is what the store
      now holds for that id. */
  lemma RecordKeywordUsageAwards(users: Store, userId: int, keyword: string, points: int)
    requires FindById(users, userId).Some?
    requires Lower(keyword) !in FindById(users, userId).value.usedKeywords
    ensures var u := FindById(users, userId).value;
            var r := RecordKeywordUsage(users, userId, keyword, points);
            && !r.1.alreadyUsed
            && r.1.user == Some(u.(usedKeywords := u.usedKeywords + [Lower(keyword)], score := u.score + points))
            && FindById(r.0, userId) == r.1.user
  {
    var i := IndexById(users, userId).value;
    var r := RecordKeywordUsage(users, userId, keyword, points);
    assert forall j :: 0 <= j < i ==> r.0[j] == users[j];
    FirstIndexIs(r.0, (u: User) => u.id == userId, i);
  }

  /** In a store with sequential ids, a first redemption by user `userId`
      replaces record `userId - 1` and nothing else. */
  lemma RecordKeywordUsageSequential(users: Store, userId: int, keyword: string, points: int)
    requires SequentialIds(users)
    requires 1 <= userId <= |users|
    requires Lower(keyword) !in users[userId - 1].usedKeywords
    ensures var u := users[userId - 1];
            var updated := u.(usedKeywords := u.usedKeywords + [Lower(keyword)], score := u.score + points);
            RecordKeywordUsage(users, userId, keyword, points) == (users[userId - 1 := updated], Usage(Some(updated), false))
  {
    FirstIndexIs(users, (u: User) => u.id == userId, userId - 1);
  }

  /** Redemption touches one record at most: every other record is unchanged,
      and no record's id, username or password hash changes. */
  lemma RecordKeywordUsageFrame(users: Store, userId: int, keyword: string, points: int)
    ensures var s := RecordKeywordUsage(users, userId, keyword, points).0;
            && |s| == |users|
            && (forall j :: 0 <= j < |users| && users[j].id != userId ==> s[j] == users[j])
            && (forall j :: 0 <= j < |users| ==>
                  s[j].id == users[j].id && s[j].username == users[j].username
                  && s[j].passwordHash == users[j].passwordHash)
  {
  }

  /** With non-negative points, no score ever drops and no keyword list ever
      loses or reorders an entry. */
  lemma RecordKeywordUsageMonotone(users: Store, userId: int, keyword: string, points: int)
    requires points >= 0
    ensures var s := RecordKeywordUsage(users, userId, keyword, points).0;
            forall j :: 0 <= j < |users| ==>
              s[j].score >= users[j].score
              && |s[j].usedKeywords| >= |users[j].usedKeywords|
              && s[j].usedKeywords[..|users[j].usedKeywords|] == users[j].usedKeywords
  {
  }

  /** Redeemed-keyword lists stay free of repeats. */
  lemma RecordKeywordUsageKeepsKeywordsDistinct(users: Store, userId: int, keyword: string, points: int)
    requires KeywordsDistinct(users)
    ensures KeywordsDistinct(RecordKeywordUsage(users, userId, keyword, points).0)
  {
    var s := RecordKeywordUsage(users, userId, keyword, points).0;
    forall j | 0 <= j < |s|
      ensures NoDuplicates(s[j].usedKeywords)
    {
      if s[j] != users[j] {
        var ks := users[j].usedKeywords;
        assert s[j].usedKeywords == ks + [Lower(keyword)];
        assert Lower(keyword) !in ks;
      }
    }
  }

  /** Redeeming a keyword, then the same keyword in any letter case, awards
      once: the second call reports `alreadyUsed`, returns the same record
      and leaves the store as the first call left it. */
  lemma RecordKeywordUsageIdempotent(users: Store, userId: int, keyword: string, again: string, points: int)
    requires Lower(again) == Lower(keyword)
    ensures var (s1, r1) := RecordKeywordUsage(users, userId, keyword, points);
            var (s2, r2) := RecordKeywordUsage(s1, userId, again, points);
            && s2 == s1
            && r2.user == r1.user
            && r2.alreadyUsed == r1.user.Some?
  {
    var (s1, r1) := RecordKeywordUsage(users, userId, keyword, points);
    if FindById(users, userId).Some? {
      if !r1.alreadyUsed {
        RecordKeywordUsageAwards(users, userId, keyword, points);
      }
      assert FindById(s1, userId) == r1.user;
      assert Lower(again) in r1.user.value.usedKeywords;
    } else {
      assert s1 == users;
    }
  }
}

=== FILE: wrappers.dfy ===
/** Optional values: the model's stand-in for JavaScript's `undefined` and `null`
    results (a user that `find` did not find, a session without a user). */
module Wrappers {

  datatype Option<+T> = None | Some(value: T)
}
